=== FILE: README.md ===
# Generated-Chat core, modelled in Dafny

This project models the stateful core of a chat application. The backend is Django, DRF and mongoengine. It registers and logs in users, keeps per-user conversation threads and their question/answer messages, and forwards each question to a completion service. It stores the answer and guards the frontend pages behind a session cookie.

The model is functional. The document store is an immutable `Store` value. It holds users, threads and messages as sequences, and per-user settings as a map. Every endpoint is a pure function. An endpoint that can write returns its reply together with the store it leaves behind (`Outcome`). The read-only ones (`ListThreads`, `ListMessages`, `Login`) return only their reply. Nothing in the model deletes a record, so a thread is identified by its position in the thread sequence.

Modules, following the program's files:

- `Wrappers` (wrappers.dfy) holds the `Option` and `Result` types.
- `Slugs` (slugs.dfy) is the unique-slug probe shared by `ChatThread` and `ChatMessage`. It tries `slugify(text)`, then `slugify(text)-1`, `-2`, … and returns the first candidate no stored record of that class holds. The counter is rendered in decimal as Python's `str` does.
- `Ordering` (ordering.dfy) is the key-ordered listing a document class declares in `meta['ordering']`.
- `Models` (models.dfy, for backend/core/models.py) holds the documents, the save-time slug rule of both classes, the unique indexes as a store invariant `Valid`, and the two queries the views use: `filter(...).first()` under the newest-first ordering, and `get(slug=…, user=…)`.
- `Accounts` (accounts.dfy, for backend/core/serializers.py plus the `User` rules) covers registration and login.
- `Views` (views.dfy, for backend/core/views.py) covers the chat turn, thread listing and creation, message listing, and the settings get-or-create.
- `RouteGuard` (route_guard.dfy, for frontend/middleware.ts) covers the protected-page redirect.

Foreign collaborators are function parameters:

- `slugify: string -> string`.
- The completion service, as an `Oracle` from (question, model, system prompt, max_tokens) to a `Completion`. A `Completion` is either the reply content, which may be null, or a raised exception.
- Password hashing, as a `Hasher` (`make_password`, `check_password`). The only law assumed of it is `Sound`: every password checks against its own hash.
- The e-mail format check `isEmail`.
- The clock, as a caller-supplied `now`.

Behaviour of the code worth knowing:

- The slug suffix is a decimal counter probed against the store.
- A slug is regenerated on every save of a titled document, so re-saving a stored thread changes its slug.
- Every usable answer comes from a fresh completion call; a repeated question is asked again, and only its thread is reused.
- An exception from the completion client is caught by `get_chat_response` and becomes the text `"Error: …"`. The turn then succeeds and stores that text as the answer. Of the completion's outcomes, only a null or empty content makes the turn fail with 500.
- Registration and login use the `User` of backend/core/mongo_models.py. That class has no hashing `save` override, so the password is hashed exactly once. The stored password is `Hash(password)`, and `User.clean` checks the length of that stored hash.

## Model

| member | source | states |
|---|---|---|
| Slugs.NatToString | backend/core/models.py:45 | the counter in the f-string is rendered as a non-empty run of decimal digits with no leading zero (only 0 itself starts with `0`) |
| Slugs.ParseNatToString | backend/core/models.py:45 | reading the rendered counter back gives the counter, so different counters give different suffixes |
| Slugs.NatToStringInjective | backend/core/models.py:45 | two different counters never render as the same suffix |
| Slugs.ProbeInjective | backend/core/models.py:43-46 | the probe never looks up the same string twice: the base and every `base-n` are pairwise distinct |
| Slugs.ImageSize | backend/core/models.py:43-46 | a lookup sequence that never repeats a string looks up m distinct strings in its first m steps |
| Slugs.ProbedSize | backend/core/models.py:43-46 | the first m probes are m distinct strings |
| Slugs.ProbeBound | backend/core/models.py:44-46 | if the first m lookups all hit, the store holds at least m slugs, so the loop cannot run past the number of stored slugs |
| Slugs.FirstFreeFrom | backend/core/models.py:43-46 | after k hits, the probe ends at the first free candidate, at most the number of stored slugs away, and every candidate it skipped was taken |
| Slugs.SlugIndex | backend/core/models.py:42-46 | the index of the returned candidate is at most the number of stored slugs, and all earlier candidates are taken |
| Slugs.UniqueSlug | backend/core/models.py:41-47 | the generated slug is held by no stored record; it is `slugify(text)` when that is free, otherwise `slugify(text)-n` with 1 <= n <= number of stored slugs and every `-i` before it taken |
| Slugs.UniqueSlugIsFirstFree | backend/core/models.py:42-47 | any free candidate whose predecessors are all taken is exactly the generated slug (the probe returns the first free one) |
| Slugs.GenerateUniqueSlug | backend/core/models.py:41-47 | the source's while loop returns the same slug, free in the store, after at most (number of stored slugs + 1) lookups |
| Ordering.Insert | backend/core/models.py:49-50 | inserting into a key-sorted listing keeps it sorted and adds exactly that one element |
| Ordering.SortBy | backend/core/models.py:49-50 | a query under a declared ordering returns a permutation of the matching documents, sorted on the key |
| Models.ThreadSlugsBound | backend/core/models.py:43-46 | there are at most as many thread slugs as stored threads, so a thread save makes at most (number of threads + 1) lookups |
| Models.MessageSlugsBound | backend/core/models.py:74-77 | there are at most as many message slugs as stored messages, so a message save makes at most (number of messages + 1) lookups |
| Models.SaveThreadSlug | backend/core/models.py:36-46 | saving a thread with a non-empty title assigns a slug free among stored thread slugs: `slugify(title)` when that is free, otherwise `slugify(title)-n` for the first free n, with 1 <= n <= number of stored slugs; an empty title leaves the slug as it was |
| Models.SaveMessageSlug | backend/core/models.py:67-77 | saving a message with non-empty text assigns a slug free among stored message slugs, by the same probe seeded with the full message text: `slugify(message)` when free, otherwise the first free `slugify(message)-n`; the other fields are kept |
| Models.ResaveChangesSlug | backend/core/models.py:36-38 | saving a stored titled thread again never keeps its slug: the slug is recomputed on every save |
| Models.Present | backend/core/views.py:90 | a request field counts as given (Python's `if not field` does not fire) exactly when it is present and not the empty string; the same test guards the title at line 61 and the slug at line 94, and decides every 400 of the model |
| Models.Title | backend/core/views.py:96 | the derived title is the first min(30, length) characters of the question, non-empty for a non-empty question |
| Models.AppendFreshThread | backend/core/models.py:51-53 | inserting a thread whose slug no stored thread holds keeps the unique slug index satisfied |
| Models.AppendFreshMessage | backend/core/models.py:82-84 | inserting a message whose slug no stored message holds keeps the unique slug index satisfied |
| Models.AppendMessageKeepsValid | backend/core/models.py:82-84 | inserting a message of a stored thread with an unused slug keeps the whole store invariant |
| Models.Valid | backend/core/models.py:51-53 | the store invariant: unique usernames and e-mails (models.py:9-10), unique thread slugs, unique message slugs (models.py:82-84), a slug on every titled thread, and every message in a stored thread |
| Models.OwnedBy | backend/core/views.py:55 | filtering by user keeps exactly the threads that user owns, each as many times as it is stored, and nothing else |
| Models.InThread | backend/core/views.py:75 | filtering by thread keeps exactly the messages of that thread, each as many times as it is stored, and nothing else |
| Models.NewestFirstOrder | backend/core/models.py:49-50 | threads list as a permutation of the stored ones with `created_at` non-increasing |
| Models.OldestFirstOrder | backend/core/models.py:80-81 | messages list as a permutation of the stored ones with `timestamp` non-decreasing |
| Models.NewestTitled | backend/core/views.py:97 | `filter(title, user).first()` finds nothing exactly when the user owns no thread with that title; otherwise it finds one of the user's threads with that title, and no other such thread is newer |
| Models.SluggedPositions | backend/core/views.py:109 | the positions matching a slug-and-owner query are exactly the user's threads with that slug, in increasing order |
| Models.LookupBySlug | backend/core/views.py:108-111 | `get(slug, user)` misses exactly when the user owns no thread with that slug; a hit is the only such thread; it reports several only when at least two of the user's threads hold the slug, which the unique slug index rules out |
| Accounts.Register | backend/core/serializers.py:5-24 | registration fails whenever the password differs from the retyped one, is shorter than 8, or the username is over 150; a failure leaves the store unchanged; each refusal names its cause, in checking order: a field error exactly when a field check fails, a password mismatch exactly when the fields pass and the two passwords differ, a refused document exactly when after that the hashed user fails `clean`, and a unique-index refusal exactly when after that the username or e-mail is in use; registration succeeds whenever the fields are valid, the passwords match, the hashed user passes `clean`, and the username and e-mail are unused; a success appends exactly one user, with username and e-mail copied and password = Hash(password); usernames and e-mails stay unique |
| Accounts.FieldsValid | backend/core/serializers.py:6-9 | the per-field checks: every field present, non-blank and free of the null character; username at most 150 characters; e-mail well-formed; password at least 8 characters |
| Accounts.Clean | backend/core/mongo_models.py:46-49 | `User.clean` refuses a stored password shorter than 8 characters |
| Accounts.FindUser | backend/core/serializers.py:33 | the lookup by username finds nothing exactly when no user has that name, and otherwise finds the first user with it |
| Accounts.Login | backend/core/serializers.py:28-36 | a missing or blank field, or one holding a null character, is a field error; a login returns a stored user with that username whose stored hash checks against the password; an unknown username and a wrong password give the same error; login returns no new store, so it never changes one |
| Accounts.LoginIff | backend/core/serializers.py:28-35 | with unique usernames, login succeeds if and only if both fields pass the character-field checks, some user has that name and the password checks against its hash, and it returns that user |
| Accounts.RegisterThenLogin | backend/core/serializers.py:11-19 | a user who has just registered logs in with the same username and password and gets the registered user back |
| Views.GetOrCreateSettings | backend/core/views.py:114-118 | existing settings are read unchanged and nothing is written; missing settings are created from the given defaults and stored; no other record changes |
| Views.GetOrCreateIdempotent | backend/core/views.py:114-118 | a second get-or-create returns the same record and writes nothing |
| Views.SettingsObject | backend/core/views.py:170-175 | the settings endpoint returns the user's stored settings unchanged, or creates them with the class defaults; threads, messages and users are untouched |
| Views.ListThreads | backend/core/views.py:54-57 | the thread listing holds exactly the caller's threads, newest first |
| Views.CreateThread | backend/core/views.py:59-65 | a missing or empty title returns 400 and writes nothing; a title over 100 characters is refused and writes nothing; otherwise exactly one thread is appended, with that title, owner and creation time, and the slug the thread save rule assigns against the stored thread slugs; the store invariant is kept |
| Views.ListMessages | backend/core/views.py:68-77 | 404 exactly when the caller owns no thread with that slug, including a thread owned by another user; otherwise all messages of that thread, oldest first |
| Views.ChatResponse | backend/core/views.py:146-162 | a raised completion call becomes the non-empty text "Error: " followed by the exception text; otherwise the reply content is passed through |
| Views.ChatReply.Status | backend/core/views.py:90-144 | the chat reply's HTTP status: 400 exactly for a missing question (line 91), 404 exactly for a missing thread (line 111), 201 exactly for a created message (line 144), and 500 for an unusable answer (line 127) or an escaping `MultipleObjectsReturned` |
| Views.Usable | backend/core/views.py:126 | an answer is usable unless it is null or empty, the condition under which the turn fails with 500 |
| Views.ResolveThread | backend/core/views.py:94-111 | with a slug, 404 exactly when the caller owns no thread with it, and the store is not touched; without one, the caller's newest thread titled `question[:30]` is reused with its slug and nothing is written, or, when there is none, exactly one thread with that title, saved by the thread save rule, is appended and its slug reported; the resolved thread is the caller's and carries the reported slug; users, messages and settings are untouched; the store invariant is kept |
| Views.ChatTurn | backend/core/views.py:85-144 | a missing or empty question returns 400 and writes nothing, and a present question never gets 400; an unknown or foreign slug returns 404 and writes nothing; without a slug, the newest existing thread titled `question[:30]` is reused (`new_thread_created` false, its slug returned), otherwise exactly one thread with that title and owner is created by the thread save rule (`new_thread_created` true); settings are read, or created with the defaults `llama3-8b-8192`, 200 and the fixed prompt, and exactly those values go to the completion; once the thread is resolved the turn answers 201 if the answer is usable and 500 otherwise; a 500 appends no message and keeps the thread and settings created earlier; a 201 appends exactly one message (thread, user, question, answer), whose slug the message save rule assigns against the stored message slugs, and changes no user |
| Views.ChatTurnFollowsResolution | backend/core/views.py:94-144 | a chat turn reports the thread, `new_thread_created` flag and slug its resolution step settled on; after a resolved turn the store is the resolution's store with the settings get-or-create applied, plus exactly the one new message on 201; an unresolved turn writes nothing |
| Views.ChatTurnPreservesValid | backend/core/views.py:85-144 | a chat turn keeps slugs unique, titled threads slugged, and every message in a stored thread |
| Views.RaisedCompletionIsStored | backend/core/views.py:160-162 | a completion call that raises does not fail the turn: once the thread is resolved the turn answers 201 and stores "Error: " followed by the exception text as the response |
| Views.CreatedReplyHasSlug | backend/core/views.py:140-144 | in a valid store every successful chat reply carries a thread slug |
| Views.RepeatedQuestionSameThread | backend/core/views.py:95-106 | asking the same question again without a slug creates no thread, even when the first turn failed after creating one; when both turns succeed, both answers are in the same thread under the same slug |
| Views.ListedUnderItsThread | backend/core/views.py:68-77 | with unique thread slugs, a message of the caller's thread is listed under that thread's slug |
| Views.ChatThenList | backend/core/views.py:130-144 | the message a successful turn appends is listed, for that user, under the thread slug the reply reports |
| RouteGuard.SomeRouteIs | frontend/middleware.ts:11 | a route matches only by exact string equality |
| RouteGuard.Middleware | frontend/middleware.ts:4-18 | the guard redirects, to `/login`, exactly when the path is `/` or `/settings` and no `access_token` cookie is present; with a token every path goes on |
| RouteGuard.Route | frontend/middleware.ts:20-22 | restricting the middleware to the matcher paths changes no decision, and a request with a token always goes on |
| RouteGuard.RedirectTargetPasses | frontend/middleware.ts:8-17 | the login page itself is never redirected |
| RouteGuard.NoPrefixMatch | frontend/middleware.ts:11 | `/settings/x` is not protected and goes on |

## Left out

- The completion client (backend/core/views.py:81-83, 151-159) is a network call. It is the `Oracle` parameter, and its print statements are dropped.
- JWT issuance in `UserLoginView` (backend/core/views.py:27-42), `MongoDBJWTAuthentication` (backend/core/custom_auth_backend.py) and the `MongoBackend` authentication backend (backend/core/custom_auth.py) are framework glue. Requests carry an already-authenticated `UserId`. `MongoBackend.authenticate` calls a `check_password` method that `User` does not define.
- `MessageListAPIView` and `ChatAPIView` declare no permission classes, so they rely on the project's default permission setting. That setting is not part of this model. Both take the caller's id like the other views.
- `slugify`, `make_password` and `check_password` are library code. They are parameters, and only the law `Sound` is assumed of hashing.
- The connection setup in backend/core/mongo_models.py runs at import time. It is I/O and is not modelled.
- `User.save` in backend/core/models.py:21-24 hashes again on save. The registration path uses the mongo_models `User`, which has no such override, so the model hashes once.
- Concurrent requests are not modelled. A race between the slug probe and the insert, or between two settings get-or-creates, could make a unique index refuse a write. The model is a single sequential store, where the probe always yields a free slug.
- The unique index treats a missing slug as a value, so it would refuse a second titleless thread. No modelled endpoint creates a titleless thread, so this is not modelled.
- `datetime.utcnow` defaults are replaced by caller-supplied natural-number timestamps.
- Models.NewestFirstOrder: the store leaves the order of equal sort keys unspecified. The model fixes one order and promises only a sorted permutation, and `NewestTitled` picks the earliest-stored thread among equally new ones.
- Settings partial update and `ModelChoicesView` (backend/core/views.py:165-168, 178-181) depend on `SettingsSerializer` and `Settings.model_choices`. Neither is part of this model. The `Settings` class is not part of this model either, so its field defaults are the parameter `classDefaults`.
- URL routing (backend/core/urls.py) is framework glue. It also imports a `LogoutView` that views.py does not define.
- `ExampleView` and `UserListView` return a constant and all users, and carry no logic worth a model.
- Reply serialization (`serializer.data`) is not modelled. Replies carry the records themselves.
- Accounts.FieldsValid: DRF's whitespace trimming of character fields is not modelled, so a field is blank only when it is the empty string; the null-character refusal of DRF character fields is modelled. The e-mail format rules are the parameter `isEmail`.
- The frontend pages, components and Next.js proxy route handlers are UI and fetch plumbing. `new URL("/login", request.url)` is modelled as the path `/login`.

=== FILE: accounts.dfy ===
/**
 * Registration and login (backend/core/serializers.py), with the model
 * rules of `User` (backend/core/models.py) that apply when the new user
 * is saved.  Password hashing is foreign code: a `Hasher` is known only
 * through the law that a password checks against its own hash.
 */
module Accounts {
  import opened Wrappers
  import opened Models

  /** `max_length` of the registration `username` field. */
  const MaxUsernameLength := 150

  /** `make_password` and `check_password`. */
  datatype Hasher = Hasher(hash: string -> string, check: (string, string) -> bool)

  /** The one law assumed of hashing: `check_password(p, make_password(p))`. */
  ghost predicate Sound(h: Hasher)
  {
    forall p :: h.check(p, h.hash(p))
  }

  /**
   * A DRF character field accepts the value: present, not blank, and free
   * of the null character its default validators refuse.
   */
  predicate CharFieldValid(f: Option<string>)
  {
    Present(f) && forall i :: 0 <= i < |f.value| ==> f.value[i] != '\0'
  }

  /** The registration form; any field may be missing. */
  datatype RegisterRequest = RegisterRequest(username: Option<string>, email: Option<string>,
                                             password: Option<string>, retypePassword: Option<string>)

  /** Why a registration was refused. */
  datatype RegisterError =
    | InvalidFields        // 400: a field is missing, blank, holds a null character or is outside its limits
    | PasswordsDoNotMatch  // 400: raised by `validate`
    | InvalidDocument      // `User.clean` refused the document while saving
    | NotUnique            // the unique index on `username` or `email` refused the insert

  /** The per-field checks of the registration serializer. */
  predicate FieldsValid(req: RegisterRequest, isEmail: string -> bool)
  {
    && CharFieldValid(req.username) && |req.username.value| <= MaxUsernameLength
    && CharFieldValid(req.email) && isEmail(req.email.value)
    && CharFieldValid(req.password) && |req.password.value| >= MinPasswordLength
    && CharFieldValid(req.retypePassword)
  }

  /** `User.clean`: the stored password must be at least eight characters long. */
  predicate Clean(u: User)
  {
    |u.password| >= MinPasswordLength
  }

  /**
   * `UserRegisterSerializer`: field checks, then `validate`, then `create`,
   * which hashes the password and saves a new `User` (running `clean` and
   * the unique indexes).  `isEmail` is the e-mail field's format check.
   */
  function Register(s: Store, req: RegisterRequest, h: Hasher, isEmail: string -> bool, now: nat)
    : (o: Outcome<Result<User, RegisterError>>)
    ensures o.reply.Failure? ==> o.store == s
    // each refusal names its cause, in the order the serializer and the save check them
    ensures o.reply == Failure(InvalidFields) <==> !FieldsValid(req, isEmail)
    ensures o.reply == Failure(PasswordsDoNotMatch) <==>
      FieldsValid(req, isEmail) && req.password != req.retypePassword
    ensures o.reply == Failure(InvalidDocument) <==>
      && FieldsValid(req, isEmail) && req.password == req.retypePassword
      && !Clean(User(req.username.value, req.email.value, h.hash(req.password.value), now))
    ensures o.reply == Failure(NotUnique) <==>
      && FieldsValid(req, isEmail) && req.password == req.retypePassword
      && Clean(User(req.username.value, req.email.value, h.hash(req.password.value), now))
      && exists u :: u in s.users && (u.username == req.username.value || u.email == req.email.value)
    ensures req.password != req.retypePassword ==> o.reply.Failure?
    ensures req.password.Some? && |req.password.value| < MinPasswordLength ==> o.reply.Failure?
    ensures req.username.Some? && |req.username.value| > MaxUsernameLength ==> o.reply.Failure?
    ensures o.reply.Success? ==> FieldsValid(req, isEmail) && req.password == req.retypePassword
    ensures o.reply.Success? ==>
      && o.store == s.(users := s.users + [o.reply.value])
      && o.reply.value == User(req.username.value, req.email.value, h.hash(req.password.value), now)
      && Clean(o.reply.value)
    ensures o.reply.Success? ==>
      forall u :: u in s.users ==> u.username != req.username.value && u.email != req.email.value
    ensures UsersUnique(s.users) ==> UsersUnique(o.store.users)
    ensures FieldsValid(req, isEmail) && req.password == req.retypePassword
            && Clean(User(req.username.value, req.email.value, h.hash(req.password.value), now))
            && (forall u :: u in s.users ==> u.username != req.username.value && u.email != req.email.value)
            ==> o.reply.Success?
  {
    if !FieldsValid(req, isEmail) then Outcome(Failure(InvalidFields), s)
    else if req.password.value != req.retypePassword.value then Outcome(Failure(PasswordsDoNotMatch), s)
    else
      var u := User(req.username.value, req.email.value, h.hash(req.password.value), now);
      if !Clean(u) then Outcome(Failure(InvalidDocument), s)
      else if exists v :: v in s.users && (v.username == u.username || v.email == u.email) then
        Outcome(Failure(NotUnique), s)
      else Outcome(Success(u), s.(users := s.users + [u]))
  }

  /** Why a login was refused. */
  datatype LoginError =
    | MissingCredentials   // 400: a field is missing, blank or holds a null character
    | InvalidCredentials   // 400: "Invalid username or password."

  /** `User.objects(username=name).first()`: the first stored user with that name. */
  function FindUser(us: seq<User>, name: string): (r: Option<nat>)
    ensures r.None? <==> forall i :: 0 <= i < |us| ==> us[i].username != name
    ensures r.Some? ==> r.value < |us| && us[r.value].username == name
    ensures r.Some? ==> forall i :: 0 <= i < r.value ==> us[i].username != name
  {
    if |us| == 0 then None
    else if us[0].username == name then Some(0)
    else
      var rest := FindUser(us[1..], name);
      if rest.None? then None else Some(rest.value + 1)
  }

  /** `UserLoginSerializer.validate`: returns the user whose stored hash checks. */
  function Login(us: seq<User>, username: Option<string>, password: Option<string>, h: Hasher)
    : (r: Result<User, LoginError>)
    ensures r.Success? ==> CharFieldValid(username) && CharFieldValid(password)
    ensures r.Success? ==> r.value in us && r.value.username == username.value
                           && h.check(password.value, r.value.password)
    ensures r.Failure? && CharFieldValid(username) && CharFieldValid(password) ==> r.error == InvalidCredentials
    ensures !CharFieldValid(username) || !CharFieldValid(password) ==> r == Failure(MissingCredentials)
  {
    if !CharFieldValid(username) || !CharFieldValid(password) then Failure(MissingCredentials)
    else
      match FindUser(us, username.value)
      case Some(i) => if h.check(password.value, us[i].password) then Success(us[i])
                      else Failure(InvalidCredentials)
      case None => Failure(InvalidCredentials)
  }

  /**
   * With usernames unique, login succeeds exactly when both fields pass
   * the character-field checks, some user has that name and the password
   * checks against its stored hash, and it returns that user.
   */
  lemma LoginIff(us: seq<User>, name: string, password: string, h: Hasher)
    requires UsersUnique(us)
    ensures Login(us, Some(name), Some(password), h).Success? <==>
            && CharFieldValid(Some(name)) && CharFieldValid(Some(password))
            && exists u :: u in us && u.username == name && h.check(password, u.password)
    ensures forall u :: CharFieldValid(Some(name)) && CharFieldValid(Some(password)) &&
                        u in us && u.username == name && h.check(password, u.password) ==>
            Login(us, Some(name), Some(password), h) == Success(u)
  {
    forall u | CharFieldValid(Some(name)) && CharFieldValid(Some(password)) &&
               u in us && u.username == name && h.check(password, u.password)
      ensures Login(us, Some(name), Some(password), h) == Success(u)
    {
      var i :| 0 <= i < |us| && us[i] == u;
      assert i == FindUser(us, name).value;
    }
  }

  /** A freshly registered user can log in with the password it registered with. */
  lemma RegisterThenLogin(s: Store, req: RegisterRequest, h: Hasher, isEmail: string -> bool, now: nat)
    requires Sound(h)
    requires Register(s, req, h, isEmail, now).reply.Success?
    ensures Login(Register(s, req, h, isEmail, now).store.users, req.username, req.password, h)
            == Success(Register(s, req, h, isEmail, now).reply.value)
  {
    var o := Register(s, req, h, isEmail, now);
    var us := o.store.users;
    var u := o.reply.value;
    assert us[|s.users|] == u;
    assert forall i :: 0 <= i < |s.users| ==> us[i] in s.users;
    assert h.check(req.password.value, h.hash(req.password.value));
  }
}

=== FILE: models.dfy ===
/**
 * The documents of backend/core/models.py and the store that holds them.
 *
 * The store is append-only in every operation of this model, so a
 * thread is identified by its position in `threads`; a message refers to
 * its thread by that position.  Timestamps are caller-supplied numbers.
 * `slugify` is foreign code and is passed in as a function.
 */
module Models {
  import opened Wrappers
  import Slugs
  import Ordering

  /** The authenticated user a request acts for. */
  type UserId = nat

  /** The position of a thread in `Store.threads`. */
  type ThreadId = nat

  /** A registered user; `password` holds the hash, never the raw password. */
  datatype User = User(username: string, email: string, password: string, createdAt: nat)

  /** A conversation thread; `slug` stays unset while the title is empty. */
  datatype Thread = Thread(title: string, slug: Option<string>, owner: UserId, createdAt: nat)

  /** One question/answer pair of a thread. */
  datatype Message = Message(thread: ThreadId, author: UserId, message: string, response: string,
                             timestamp: nat, slug: Option<string>)

  /** Per-user completion settings: model name, system prompt and token budget. */
  datatype Settings = Settings(model: string, customizeResponse: string, maxTokens: int)

  /** The whole document store. At most one settings record per user, by construction. */
  datatype Store = Store(users: seq<User>, threads: seq<Thread>, messages: seq<Message>,
                         settings: map<UserId, Settings>)

  /** What an endpoint answers, together with the store it leaves behind. */
  datatype Outcome<+R> = Outcome(reply: R, store: Store)

  /** A request field that is present and truthy: not missing, not the empty string. */
  predicate Present(f: Option<string>)
  {
    f.Some? && f.value != ""
  }

  /** Maximum length mongoengine enforces on `ChatThread.title` when saving. */
  const MaxTitleLength := 100

  /** Minimum password length `User.clean` enforces when saving. */
  const MinPasswordLength := 8

  // ---------------------------------------------------------------------------
  // Slugs held by stored records (one namespace per document class)

  /** A set inside another is no larger than it. */
  lemma SubsetBound(a: set<string>, b: set<string>)
    requires a <= b
    ensures |a| <= |b|
  {
    assert b == a + (b - a);
  }

  /** Adding at most one element grows a set by at most one. */
  lemma AddOneBound(a: set<string>, own: set<string>)
    requires |own| <= 1
    ensures |a + own| <= |a| + 1
  {
    if own != {} {
      var y :| y in own;
      assert own == {y} by {
        forall z | z in own ensures z == y {
          if z != y {
            SubsetBound({y, z}, own);
          }
        }
      }
    }
  }

  /** Every slug some stored thread holds. */
  function ThreadSlugs(ts: seq<Thread>): (r: set<string>)
    ensures forall i :: 0 <= i < |ts| && ts[i].slug.Some? ==> ts[i].slug.value in r
    ensures forall x :: x in r ==> exists i :: 0 <= i < |ts| && ts[i].slug == Some(x)
  {
    set i | 0 <= i < |ts| && ts[i].slug.Some? :: ts[i].slug.value
  }

  /** Every slug some stored message holds. */
  function MessageSlugs(ms: seq<Message>): (r: set<string>)
    ensures forall i :: 0 <= i < |ms| && ms[i].slug.Some? ==> ms[i].slug.value in r
    ensures forall x :: x in r ==> exists i :: 0 <= i < |ms| && ms[i].slug == Some(x)
  {
    set i | 0 <= i < |ms| && ms[i].slug.Some? :: ms[i].slug.value
  }

  /** Every slug of a non-empty thread sequence is a slug of all but the last, or the last one's. */
  lemma ThreadSlugsStep(ts: seq<Thread>)
    requires |ts| > 0
    ensures forall x :: x in ThreadSlugs(ts) ==> x in ThreadSlugs(ts[..|ts| - 1]) || ts[|ts| - 1].slug == Some(x)
  {
    var pre := ts[..|ts| - 1];
    forall x | x in ThreadSlugs(ts)
      ensures x in ThreadSlugs(pre) || ts[|ts| - 1].slug == Some(x)
    {
      var i :| 0 <= i < |ts| && ts[i].slug == Some(x);
      if i < |ts| - 1 {
        assert pre[i] == ts[i];
      }
    }
  }

  /**
   * The thread slug index holds at most one slug per stored thread, so the
   * probe of `ChatThread.save` issues at most one lookup more than that.
   */
  lemma {:induction false} ThreadSlugsBound(ts: seq<Thread>)
    ensures |ThreadSlugs(ts)| <= |ts|
  {
    if |ts| > 0 {
      var pre := ts[..|ts| - 1];
      var own: set<string> := if ts[|ts| - 1].slug.Some? then {ts[|ts| - 1].slug.value} else {};
      ThreadSlugsBound(pre);
      ThreadSlugsStep(ts);
      SubsetBound(ThreadSlugs(ts), ThreadSlugs(pre) + own);
      AddOneBound(ThreadSlugs(pre), own);
    }
  }

  /** Every slug of a non-empty message sequence is a slug of all but the last, or the last one's. */
  lemma MessageSlugsStep(ms: seq<Message>)
    requires |ms| > 0
    ensures forall x :: x in MessageSlugs(ms) ==> x in MessageSlugs(ms[..|ms| - 1]) || ms[|ms| - 1].slug == Some(x)
  {
    var pre := ms[..|ms| - 1];
    forall x | x in MessageSlugs(ms)
      ensures x in MessageSlugs(pre) || ms[|ms| - 1].slug == Some(x)
    {
      var i :| 0 <= i < |ms| && ms[i].slug == Some(x);
      if i < |ms| - 1 {
        assert pre[i] == ms[i];
      }
    }
  }

  /** The message slug index holds at most one slug per stored message. */
  lemma {:induction false} MessageSlugsBound(ms: seq<Message>)
    ensures |MessageSlugs(ms)| <= |ms|
  {
    if |ms| > 0 {
      var pre := ms[..|ms| - 1];
      var own: set<string> := if ms[|ms| - 1].slug.Some? then {ms[|ms| - 1].slug.value} else {};
      MessageSlugsBound(pre);
      MessageSlugsStep(ms);
      SubsetBound(MessageSlugs(ms), MessageSlugs(pre) + own);
      AddOneBound(MessageSlugs(pre), own);
    }
  }

  /**
   * `ChatThread.save`: when the title is non-empty the slug is generated
   * afresh from `slugify(title)` against the slugs `taken` by stored
   * threads, whatever slug the thread held before; otherwise the slug is
   * left as it was.
   */
  function SaveThreadSlug(t: Thread, taken: set<string>, slugify: string -> string): (r: Thread)
    ensures r.title == t.title && r.owner == t.owner && r.createdAt == t.createdAt
    ensures t.title == "" ==> r.slug == t.slug
    ensures t.title != "" ==> r.slug.Some? && r.slug.value !in taken
    ensures t.title != "" && slugify(t.title) !in taken ==> r.slug == Some(slugify(t.title))
    ensures t.title != "" && slugify(t.title) in taken ==>
      exists n :: 1 <= n <= |taken| && r.slug == Some(slugify(t.title) + "-" + Slugs.NatToString(n))
                  && forall i :: 1 <= i < n ==> slugify(t.title) + "-" + Slugs.NatToString(i) in taken
  {
    if t.title != "" then t.(slug := Some(Slugs.UniqueSlug(slugify(t.title), taken))) else t
  }

  /**
   * `ChatMessage.save`: the same probe, seeded with the whole message text
   * and checked against the slugs of stored messages only.
   */
  function SaveMessageSlug(m: Message, taken: set<string>, slugify: string -> string): (r: Message)
    ensures r.thread == m.thread && r.author == m.author && r.message == m.message
    ensures r.response == m.response && r.timestamp == m.timestamp
    ensures m.message == "" ==> r.slug == m.slug
    ensures m.message != "" ==> r.slug.Some? && r.slug.value !in taken
    ensures m.message != "" && slugify(m.message) !in taken ==> r.slug == Some(slugify(m.message))
    ensures m.message != "" && slugify(m.message) in taken ==>
      exists n :: 1 <= n <= |taken| && r.slug == Some(slugify(m.message) + "-" + Slugs.NatToString(n))
                  && forall i :: 1 <= i < n ==> slugify(m.message) + "-" + Slugs.NatToString(i) in taken
  {
    if m.message != "" then m.(slug := Some(Slugs.UniqueSlug(slugify(m.message), taken))) else m
  }

  /**
   * Saving a stored, titled thread again never keeps its slug: the probe
   * sees the thread's own slug as taken and moves on to a suffixed one.
   */
  lemma ResaveChangesSlug(ts: seq<Thread>, i: nat, slugify: string -> string)
    requires i < |ts| && ts[i].title != "" && ts[i].slug.Some?
    ensures SaveThreadSlug(ts[i], ThreadSlugs(ts), slugify).slug != ts[i].slug
  {
  }

  /** `question[:30]`: the title a chat turn derives from its question. */
  function Title(q: string): (t: string)
    ensures |t| == if |q| < 30 then |q| else 30
    ensures t == q[..|t|]
    ensures q != "" ==> t != ""
  {
    if |q| <= 30 then q else q[..30]
  }

  // ---------------------------------------------------------------------------
  // Store invariant

  /** The unique index on `ChatThread.slug`. */
  predicate ThreadSlugsUnique(ts: seq<Thread>)
  {
    forall i, j :: 0 <= i < j < |ts| && ts[i].slug.Some? ==> ts[i].slug != ts[j].slug
  }

  /** The unique index on `ChatMessage.slug`. */
  predicate MessageSlugsUnique(ms: seq<Message>)
  {
    forall i, j :: 0 <= i < j < |ms| && ms[i].slug.Some? ==> ms[i].slug != ms[j].slug
  }

  /** The unique indexes on `User.username` and `User.email`. */
  predicate UsersUnique(us: seq<User>)
  {
    forall i, j :: 0 <= i < j < |us| ==> us[i].username != us[j].username && us[i].email != us[j].email
  }

  /** What every store reachable through the modelled operations satisfies. */
  predicate Valid(s: Store)
  {
    && UsersUnique(s.users)
    && ThreadSlugsUnique(s.threads)
    && MessageSlugsUnique(s.messages)
    && (forall i :: 0 <= i < |s.threads| && s.threads[i].title != "" ==> s.threads[i].slug.Some?)
    && (forall k :: 0 <= k < |s.messages| ==> s.messages[k].thread < |s.threads|)
  }

  /** Appending a thread whose slug no stored thread holds keeps the slug index unique. */
  lemma AppendFreshThread(ts: seq<Thread>, t: Thread)
    requires t.slug.Some? ==> t.slug.value !in ThreadSlugs(ts)
    ensures ThreadSlugsUnique(ts) ==> ThreadSlugsUnique(ts + [t])
  {
  }

  /** Appending a message whose slug no stored message holds keeps the slug index unique. */
  lemma AppendFreshMessage(ms: seq<Message>, m: Message)
    requires m.slug.Some? ==> m.slug.value !in MessageSlugs(ms)
    ensures MessageSlugsUnique(ms) ==> MessageSlugsUnique(ms + [m])
  {
  }

  /** Appending a message with an unused slug to a stored thread keeps the store valid. */
  lemma AppendMessageKeepsValid(s: Store, m: Message)
    requires Valid(s)
    requires m.slug.Some? ==> m.slug.value !in MessageSlugs(s.messages)
    requires m.thread < |s.threads|
    ensures Valid(s.(messages := s.messages + [m]))
  {
    AppendFreshMessage(s.messages, m);
  }

  // ---------------------------------------------------------------------------
  // Queries

  /** Sort key for `ChatThread` (`'ordering': ['-created_at']`): newest first. */
  function NewestFirst(t: Thread): int
  {
    -(t.createdAt as int)
  }

  /** Sort key for `ChatMessage` (`'ordering': ['timestamp']`): oldest first. */
  function OldestFirst(m: Message): int
  {
    m.timestamp
  }

  /** The threads `user` owns, in store order. */
  function OwnedBy(ts: seq<Thread>, user: UserId): (r: seq<Thread>)
    ensures forall t :: t in r <==> t in ts && t.owner == user
    ensures forall t :: multiset(r)[t] == if t.owner == user then multiset(ts)[t] else 0
  {
    if |ts| == 0 then []
    else
      assert ts == ts[..|ts| - 1] + [ts[|ts| - 1]];
      OwnedBy(ts[..|ts| - 1], user) + (if ts[|ts| - 1].owner == user then [ts[|ts| - 1]] else [])
  }

  /** The messages of thread `id`, in store order. */
  function InThread(ms: seq<Message>, id: ThreadId): (r: seq<Message>)
    ensures forall m :: m in r <==> m in ms && m.thread == id
    ensures forall m :: multiset(r)[m] == if m.thread == id then multiset(ms)[m] else 0
  {
    if |ms| == 0 then []
    else
      assert ms == ms[..|ms| - 1] + [ms[|ms| - 1]];
      InThread(ms[..|ms| - 1], id) + (if ms[|ms| - 1].thread == id then [ms[|ms| - 1]] else [])
  }

  /** Threads as a query returns them under `'ordering': ['-created_at']`. */
  function NewestFirstOrder(ts: seq<Thread>): (r: seq<Thread>)
    ensures multiset(r) == multiset(ts)
    ensures forall t :: t in r <==> t in ts
    ensures forall i, j :: 0 <= i < j < |r| ==> r[i].createdAt >= r[j].createdAt
  {
    var r := Ordering.SortBy(ts, NewestFirst);
    assert forall t :: t in r <==> t in multiset(r);
    assert forall i, j :: 0 <= i < j < |r| ==> NewestFirst(r[i]) <= NewestFirst(r[j]);
    r
  }

  /** Messages as a query returns them under `'ordering': ['timestamp']`. */
  function OldestFirstOrder(ms: seq<Message>): (r: seq<Message>)
    ensures multiset(r) == multiset(ms)
    ensures forall m :: m in r <==> m in ms
    ensures forall i, j :: 0 <= i < j < |r| ==> r[i].timestamp <= r[j].timestamp
  {
    var r := Ordering.SortBy(ms, OldestFirst);
    assert forall m :: m in r <==> m in multiset(r);
    assert forall i, j :: 0 <= i < j < |r| ==> OldestFirst(r[i]) <= OldestFirst(r[j]);
    r
  }

  /** Thread `t` is owned by `user` and carries `title`. */
  predicate TitledFor(t: Thread, user: UserId, title: string)
  {
    t.owner == user && t.title == title
  }

  /**
   * `ChatThread.objects.filter(title=title, user=user).first()`: under the
   * newest-first ordering, the matching thread with the latest
   * `created_at` (the earliest stored one among equal timestamps).
   */
  function NewestTitled(ts: seq<Thread>, user: UserId, title: string): (r: Option<ThreadId>)
    ensures r.None? <==> forall i :: 0 <= i < |ts| ==> !TitledFor(ts[i], user, title)
    ensures r.Some? ==> r.value < |ts| && TitledFor(ts[r.value], user, title)
    ensures r.Some? ==> forall i :: 0 <= i < |ts| && TitledFor(ts[i], user, title) ==>
                          ts[i].createdAt <= ts[r.value].createdAt
  {
    if |ts| == 0 then None
    else
      var last := |ts| - 1;
      var earlier := NewestTitled(ts[..last], user, title);
      if !TitledFor(ts[last], user, title) then earlier
      else if earlier.Some? && ts[last].createdAt <= ts[earlier.value].createdAt then earlier
      else Some(last)
  }

  /** The outcome of `ChatThread.objects.get(slug=slug, user=user)`. */
  datatype Lookup = Missing | Found(id: ThreadId) | Ambiguous

  /** Thread `t` is owned by `user` and holds `slug`. */
  predicate SluggedFor(t: Thread, user: UserId, slug: string)
  {
    t.owner == user && t.slug == Some(slug)
  }

  /** The positions of the threads `user` owns under `slug`, in increasing order. */
  function SluggedPositions(ts: seq<Thread>, user: UserId, slug: string): (r: seq<ThreadId>)
    ensures forall k :: 0 <= k < |r| ==> r[k] < |ts| && SluggedFor(ts[r[k]], user, slug)
    ensures forall i :: 0 <= i < |ts| && SluggedFor(ts[i], user, slug) ==> i in r
    ensures forall k, l :: 0 <= k < l < |r| ==> r[k] < r[l]
  {
    if |ts| == 0 then []
    else
      var last := |ts| - 1;
      SluggedPositions(ts[..last], user, slug) + (if SluggedFor(ts[last], user, slug) then [last] else [])
  }

  /**
   * `get` raises `DoesNotExist` when nothing matches and
   * `MultipleObjectsReturned` when more than one document does.
   */
  function LookupBySlug(ts: seq<Thread>, user: UserId, slug: string): (r: Lookup)
    ensures r.Missing? <==> forall i :: 0 <= i < |ts| ==> !SluggedFor(ts[i], user, slug)
    ensures r.Found? ==> r.id < |ts| && SluggedFor(ts[r.id], user, slug)
    ensures r.Found? ==> forall i :: 0 <= i < |ts| && SluggedFor(ts[i], user, slug) ==> i == r.id
    ensures r.Ambiguous? ==>
      exists i, j :: 0 <= i < j < |ts| && SluggedFor(ts[i], user, slug) && SluggedFor(ts[j], user, slug)
    ensures ThreadSlugsUnique(ts) ==> !r.Ambiguous?
  {
    var ps := SluggedPositions(ts, user, slug);
    if |ps| == 0 then Missing
    else if |ps| == 1 then Found(ps[0])
    else
      assert ps[0] < ps[1] && SluggedFor(ts[ps[0]], user, slug) && SluggedFor(ts[ps[1]], user, slug);
      Ambiguous
  }
}

=== FILE: ordering.dfy ===
/**
 * The listing order a document class declares in its `meta['ordering']`
 * (backend/core/models.py): query results come back sorted on one key.
 * The store's order among equal keys is unspecified; the model fixes one.
 */
module Ordering {

  /** `s` is in non-decreasing order of `key`. */
  predicate SortedBy<T>(s: seq<T>, key: T -> int)
  {
    forall i, j :: 0 <= i < j < |s| ==> key(s[i]) <= key(s[j])
  }

  /** Every element of `s` has a key of at least `low`. */
  predicate KeysAtLeast<T>(s: seq<T>, key: T -> int, low: int)
  {
    forall i :: 0 <= i < |s| ==> low <= key(s[i])
  }

  /** Putting an element no larger than the rest in front of a sorted sequence keeps it sorted. */
  lemma ConsSorted<T>(a: T, s: seq<T>, key: T -> int)
    requires SortedBy(s, key) && KeysAtLeast(s, key, key(a))
    ensures SortedBy([a] + s, key)
  {
    var r := [a] + s;
    forall i, j | 0 <= i < j < |r| ensures key(r[i]) <= key(r[j]) {
      if i > 0 {
        assert r[i] == s[i - 1] && r[j] == s[j - 1];
      } else {
        assert r[j] == s[j - 1];
      }
    }
  }

  /** A lower bound on every key survives putting an element that meets it in front. */
  lemma ConsKeys<T>(a: T, s: seq<T>, key: T -> int)
    ensures forall low :: low <= key(a) && KeysAtLeast(s, key, low) ==> KeysAtLeast([a] + s, key, low)
  {
    forall low | low <= key(a) && KeysAtLeast(s, key, low) ensures KeysAtLeast([a] + s, key, low) {
      forall i | 0 <= i < |[a] + s| ensures low <= key(([a] + s)[i]) {
        if i > 0 {
          assert ([a] + s)[i] == s[i - 1];
        }
      }
    }
  }

  /** Inserts `x` before the first element whose key is not smaller. */
  function Insert<T>(x: T, s: seq<T>, key: T -> int): (r: seq<T>)
    requires SortedBy(s, key)
    ensures SortedBy(r, key)
    ensures multiset(r) == multiset(s) + multiset{x}
    ensures |r| == |s| + 1
    ensures forall low :: KeysAtLeast(s, key, low) && low <= key(x) ==> KeysAtLeast(r, key, low)
  {
    if |s| == 0 then [x]
    else if key(x) <= key(s[0]) then [x] + s
    else
      var tail := s[1..];
      assert s == [s[0]] + tail;
      assert KeysAtLeast(tail, key, key(s[0]));
      var rest := Insert(x, tail, key);
      ConsSorted(s[0], rest, key);
      assert forall low :: KeysAtLeast(s, key, low) ==> low <= key(s[0]) && KeysAtLeast(tail, key, low);
      ConsKeys(s[0], rest, key);
      [s[0]] + rest
  }

  /** A reordering of `s` sorted on `key`: what a query with that ordering returns. */
  function SortBy<T>(s: seq<T>, key: T -> int): (r: seq<T>)
    ensures SortedBy(r, key)
    ensures multiset(r) == multiset(s)
    ensures |r| == |s|
  {
    if |s| == 0 then []
    else
      assert s == [s[0]] + s[1..];
      Insert(s[0], SortBy(s[1..], key), key)
  }
}

=== FILE: route_guard.dfy ===
/**
 * The Next.js middleware of frontend/middleware.ts: a request for a
 * protected page without an `access_token` cookie is sent to the login
 * page; every other request goes on.  The cookie's value is never
 * inspected, only whether the cookie is there.
 */
module RouteGuard {

  /** What the middleware answers. */
  datatype Decision = Redirect(location: string) | Next

  /** The pages that need a session. */
  const ProtectedRoutes: seq<string> := ["/", "/settings"]

  /** Where an unauthenticated visitor is sent. */
  const LoginPath := "/login"

  /** `routes.some((route) => pathname === route)`: exact string equality, no prefix match. */
  function SomeRouteIs(routes: seq<string>, pathname: string): (b: bool)
    ensures b <==> exists k :: 0 <= k < |routes| && routes[k] == pathname
  {
    if |routes| == 0 then false
    else routes[0] == pathname || SomeRouteIs(routes[1..], pathname)
  }

  /** `middleware(request)`, seen through the path and whether the cookie is present. */
  function Middleware(pathname: string, hasToken: bool): (d: Decision)
    ensures d.Redirect? <==> (pathname == "/" || pathname == "/settings") && !hasToken
    ensures d.Redirect? ==> d.location == LoginPath
  {
    if SomeRouteIs(ProtectedRoutes, pathname) && !hasToken then Redirect(LoginPath) else Next
  }

  /**
   * `config.matcher`: the middleware runs only for `/` and `/settings`;
   * everything else goes on without it.
   */
  function Route(pathname: string, hasToken: bool): (d: Decision)
    ensures d == Middleware(pathname, hasToken)
    ensures hasToken ==> d == Next
  {
    if pathname == "/" || pathname == "/settings" then Middleware(pathname, hasToken) else Next
  }

  /** The login page is never redirected, so the redirect cannot loop. */
  lemma RedirectTargetPasses(hasToken: bool)
    ensures Middleware(LoginPath, hasToken) == Next
  {
  }

  /** A sub-page of a protected page is not protected: `/settings/x` goes on. */
  lemma NoPrefixMatch(hasToken: bool)
    ensures Middleware("/settings/x", hasToken) == Next
  {
  }
}

=== FILE: slugs.dfy ===
/**
 * The slug probe shared by `ChatThread._generate_unique_slug` and
 * `ChatMessage._generate_unique_slug` (backend/core/models.py).
 *
 * Starting from `base = slugify(text)`, the probe tries `base`, then
 * `base-1`, `base-2`, ... and returns the first candidate that no stored
 * record of the same kind holds.  `slugify` itself is foreign code and
 * stays a parameter of the callers; here only its result `base` matters.
 */
module Slugs {

  /** The character of a decimal digit. */
  function DigitChar(d: nat): (c: char)
    requires d < 10
    ensures '0' <= c <= '9'
  {
    ('0' as int + d) as char
  }

  /** The value of a decimal digit character (0 for anything else). */
  function DigitValue(c: char): nat
  {
    if '0' <= c <= '9' then (c as int - '0' as int) as nat else 0
  }

  /** Python's `str(n)` for a non-negative integer: its decimal digits, no leading zero. */
  function NatToString(n: nat): (s: string)
    ensures |s| >= 1
    ensures forall i :: 0 <= i < |s| ==> '0' <= s[i] <= '9'
    ensures s[0] == '0' ==> n == 0
    decreases n
  {
    if n < 10 then [DigitChar(n)] else NatToString(n / 10) + [DigitChar(n % 10)]
  }

  /** Reads a string of decimal digits back as a number. */
  function ParseDigits(s: string): nat
  {
    if |s| == 0 then 0 else ParseDigits(s[..|s| - 1]) * 10 + DigitValue(s[|s| - 1])
  }

  /** Reading back the decimal rendering of `n` gives `n`. */
  lemma {:induction false} ParseNatToString(n: nat)
    ensures ParseDigits(NatToString(n)) == n
    decreases n
  {
    var s := NatToString(n);
    if n >= 10 {
      assert s[..|s| - 1] == NatToString(n / 10);
      ParseNatToString(n / 10);
    }
  }

  /** Distinct counters render as distinct strings. */
  lemma NatToStringInjective(a: nat, b: nat)
    ensures NatToString(a) == NatToString(b) ==> a == b
  {
    ParseNatToString(a);
    ParseNatToString(b);
  }

  /** The f-string `f"{base}-{count}"`: the counter is always appended to the base slug. */
  function Candidate(base: string, count: nat): (c: string)
    ensures |c| > |base| + 1 && c[..|base|] == base && c[|base|] == '-'
    ensures c[|base| + 1..] == NatToString(count)
  {
    base + "-" + NatToString(count)
  }

  /** The `i`-th string the probe looks up: the base itself, then `base-1`, `base-2`, ... */
  function Probe(base: string, i: nat): string
  {
    if i == 0 then base else Candidate(base, i)
  }

  /** The probe never looks the same string up twice. */
  lemma ProbeInjective(base: string, i: nat, j: nat)
    ensures Probe(base, i) == Probe(base, j) ==> i == j
  {
    if Probe(base, i) == Probe(base, j) && i != 0 && j != 0 {
      NatToStringInjective(i, j);
    }
  }

  /** The values `f(0)`, ..., `f(m-1)`. */
  function Image(f: nat -> string, m: nat): (p: set<string>)
    ensures forall i :: 0 <= i < m ==> f(i) in p
  {
    if m == 0 then {} else Image(f, m - 1) + {f(m - 1)}
  }

  /** A value `f` does not take below `m` is not among `f(0)`, ..., `f(m-1)`. */
  lemma {:induction false} ImageAvoids(f: nat -> string, m: nat, x: string)
    requires forall i :: 0 <= i < m ==> f(i) != x
    ensures x !in Image(f, m)
  {
    if m > 0 {
      ImageAvoids(f, m - 1, x);
    }
  }

  /** A set holding `f(0)`, ..., `f(m-1)` holds their image. */
  lemma {:induction false} ImageWithin(f: nat -> string, m: nat, t: set<string>)
    requires forall i :: 0 <= i < m ==> f(i) in t
    ensures Image(f, m) <= t
  {
    if m > 0 {
      ImageWithin(f, m - 1, t);
    }
  }

  /** A function that never repeats a value has `m` distinct values below `m`. */
  lemma {:induction false} ImageSize(f: nat -> string, m: nat)
    requires forall i, j :: 0 <= i < j < m ==> f(i) != f(j)
    ensures |Image(f, m)| == m
  {
    if m > 0 {
      ImageSize(f, m - 1);
      ImageAvoids(f, m - 1, f(m - 1));
    }
  }

  /** The first `m` strings the probe looks up. */
  function Probed(base: string, m: nat): set<string>
  {
    Image((i: nat) => Probe(base, i), m)
  }

  /** The first `m` probes are `m` distinct strings. */
  lemma ProbedSize(base: string, m: nat)
    ensures |Probed(base, m)| == m
  {
    forall i, j | 0 <= i < j < m
      ensures Probe(base, i) != Probe(base, j)
    {
      ProbeInjective(base, i, j);
    }
    ImageSize((i: nat) => Probe(base, i), m);
  }

  /** If the first `m` probes all hit, the store holds at least `m` slugs. */
  lemma ProbeBound(base: string, taken: set<string>, m: nat)
    requires forall i :: 0 <= i < m ==> Probe(base, i) in taken
    ensures m <= |taken|
  {
    var p := Probed(base, m);
    ProbedSize(base, m);
    ImageWithin((i: nat) => Probe(base, i), m, taken);
    assert taken == p + (taken - p);
  }

  /**
   * The index of the first free probe at or after `k`, given that probes
   * `0 .. k-1` were all taken.  Each step finds one more taken slug, so
   * the search ends within `|taken|` steps.
   */
  function FirstFreeFrom(base: string, taken: set<string>, k: nat): (n: nat)
    requires forall i :: 0 <= i < k ==> Probe(base, i) in taken
    ensures k <= n <= |taken|
    ensures Probe(base, n) !in taken
    ensures forall i :: k <= i < n ==> Probe(base, i) in taken
    decreases |taken| - k
  {
    ProbeBound(base, taken, k);
    if Probe(base, k) !in taken then k
    else
      ProbeBound(base, taken, k + 1);
      FirstFreeFrom(base, taken, k + 1)
  }

  /** The number of `-n` suffixes the generator has to try before it finds a free slug. */
  function SlugIndex(base: string, taken: set<string>): (n: nat)
    ensures n <= |taken|
    ensures Probe(base, n) !in taken
    ensures forall i :: 0 <= i < n ==> Probe(base, i) in taken
  {
    FirstFreeFrom(base, taken, 0)
  }

  /**
   * The slug `_generate_unique_slug` returns when the store already holds
   * the slugs `taken`: `base` when it is free, otherwise the first free
   * `base-n`, with `n` at most the number of stored slugs.
   */
  function UniqueSlug(base: string, taken: set<string>): (r: string)
    ensures r !in taken
    ensures base !in taken ==> r == base
    ensures base in taken ==>
      exists n :: 1 <= n <= |taken| && r == base + "-" + NatToString(n)
                  && forall i :: 1 <= i < n ==> base + "-" + NatToString(i) in taken
  {
    var n := SlugIndex(base, taken);
    assert forall i :: 1 <= i < n ==> Probe(base, i) == base + "-" + NatToString(i);
    Probe(base, n)
  }

  /**
   * The generator's answer is the FIRST free probe: any free probe whose
   * predecessors are all taken is exactly what `UniqueSlug` returns.
   */
  lemma UniqueSlugIsFirstFree(base: string, taken: set<string>, n: nat)
    requires Probe(base, n) !in taken
    requires forall i :: 0 <= i < n ==> Probe(base, i) in taken
    ensures UniqueSlug(base, taken) == Probe(base, n)
    ensures n <= |taken|
  {
    var m := SlugIndex(base, taken);
    assert Probe(base, m) !in taken && Probe(base, n) !in taken;
    assert m == n;
    ProbeBound(base, taken, n);
  }

  /**
   * The generator loop as the source writes it: look the candidate up,
   * and while some record holds it, build the next `base-count`.
   * `lookups` counts the store queries the loop issues.
   */
  method GenerateUniqueSlug(base: string, taken: set<string>) returns (slug: string, lookups: nat)
    ensures slug == UniqueSlug(base, taken)
    ensures slug !in taken
    ensures 1 <= lookups <= |taken| + 1
  {
    slug := base;
    var count := 1;
    lookups := 1;
    while slug in taken
      invariant 1 <= count && lookups == count
      invariant slug == Probe(base, count - 1)
      invariant forall i :: 0 <= i < count - 1 ==> Probe(base, i) in taken
      decreases |taken| - count
    {
      ProbeBound(base, taken, count);
      slug := Candidate(base, count);
      count := count + 1;
      lookups := lookups + 1;
    }
    UniqueSlugIsFirstFree(base, taken, count - 1);
  }
}

=== FILE: views.dfy ===
/**
 * The thread, message, chat and settings endpoints of backend/core/views.py
 * as pure steps over the store.  The completion service is an oracle
 * parameter; `slugify` is a parameter as well.
 */
module Views {
  import opened Wrappers
  import opened Models

  // ---------------------------------------------------------------------------
  // Settings

  /** The model a chat turn stores for a user without settings. */
  const DefaultModel := "llama3-8b-8192"

  /** The system prompt a chat turn stores for a user without settings. */
  const DefaultPrompt := "You are an intelligent assistant. Please provide informative and helpful responses."

  /** The token budget a chat turn stores for a user without settings. */
  const DefaultMaxTokens := 200

  /** The settings record a chat turn creates on a user's first turn. */
  const ChatDefaults := Settings(DefaultModel, DefaultPrompt, DefaultMaxTokens)

  /**
   * `Settings.objects.get(user=user)`, falling back to creating a record
   * from `defaults`: the user's settings afterwards, and the store that
   * holds them.  Nothing but the user's own entry can change.
   */
  function GetOrCreateSettings(s: Store, user: UserId, defaults: Settings): (o: Outcome<Settings>)
    ensures user in o.store.settings && o.store.settings[user] == o.reply
    ensures user in s.settings ==> o.reply == s.settings[user] && o.store == s
    ensures user !in s.settings ==> o.reply == defaults
    ensures o.store == s.(settings := s.settings[user := o.reply])
  {
    if user in s.settings then Outcome(s.settings[user], s)
    else Outcome(defaults, s.(settings := s.settings[user := defaults]))
  }

  /** Get-or-create is idempotent: a second call reads back the same record and writes nothing. */
  lemma GetOrCreateIdempotent(s: Store, user: UserId, d1: Settings, d2: Settings)
    ensures var o1 := GetOrCreateSettings(s, user, d1);
            GetOrCreateSettings(o1.store, user, d2) == o1
  {
  }

  /**
   * `SettingsUpdateView.get_object`: the user's settings, created with the
   * field defaults of the `Settings` class when missing.  That class is
   * not part of this model, so its defaults are the parameter `classDefaults`.
   */
  function SettingsObject(s: Store, user: UserId, classDefaults: Settings): (o: Outcome<Settings>)
    ensures user in s.settings ==> o == Outcome(s.settings[user], s)
    ensures user !in s.settings ==>
      o.reply == classDefaults && o.store.settings == s.settings[user := classDefaults]
    ensures o.store.users == s.users && o.store.threads == s.threads && o.store.messages == s.messages
  {
    GetOrCreateSettings(s, user, classDefaults)
  }

  // ---------------------------------------------------------------------------
  // Threads

  /** `ThreadListCreateAPIView.get`: the caller's threads, newest first. */
  function ListThreads(s: Store, user: UserId): (r: seq<Thread>)
    ensures forall t :: t in r <==> t in s.threads && t.owner == user
    ensures multiset(r) == multiset(OwnedBy(s.threads, user))
    ensures forall i, j :: 0 <= i < j < |r| ==> r[i].createdAt >= r[j].createdAt
  {
    NewestFirstOrder(OwnedBy(s.threads, user))
  }

  /** What `ThreadListCreateAPIView.post` answers. */
  datatype CreateReply =
    | TitleRequired                                // 400
    | TitleTooLong                                 // the document's validation refuses the save
    | ThreadCreated(id: ThreadId, thread: Thread)  // 201

  /**
   * `ThreadListCreateAPIView.post`: `ChatThread.objects.create(title, user)`,
   * whose `save` assigns the slug before the document is validated and
   * inserted.
   */
  function CreateThread(s: Store, user: UserId, title: Option<string>, now: nat,
                        slugify: string -> string): (o: Outcome<CreateReply>)
    ensures !Present(title) ==> o == Outcome(TitleRequired, s)
    ensures Present(title) && |title.value| > MaxTitleLength ==> o == Outcome(TitleTooLong, s)
    ensures Present(title) && |title.value| <= MaxTitleLength ==> o.reply.ThreadCreated?
    ensures o.reply.ThreadCreated? ==>
      && o.reply.id == |s.threads|
      && o.store == s.(threads := s.threads + [o.reply.thread])
      && o.reply.thread.title == title.value && o.reply.thread.owner == user
      && o.reply.thread.createdAt == now
      && o.reply.thread.slug.Some? && o.reply.thread.slug.value !in ThreadSlugs(s.threads)
      && o.reply.thread == SaveThreadSlug(Thread(title.value, None, user, now), ThreadSlugs(s.threads), slugify)
    ensures Valid(s) ==> Valid(o.store)
  {
    if !Present(title) then Outcome(TitleRequired, s)
    else
      var t := SaveThreadSlug(Thread(title.value, None, user, now), ThreadSlugs(s.threads), slugify);
      if |t.title| > MaxTitleLength then Outcome(TitleTooLong, s)
      else
        AppendFreshThread(s.threads, t);
        Outcome(ThreadCreated(|s.threads|, t), s.(threads := s.threads + [t]))
  }

  // ---------------------------------------------------------------------------
  // Messages

  /** What `MessageListAPIView.get` answers. */
  datatype MessagesReply =
    | ThreadMissing                                   // 404 "Thread not found."
    | ListingCrashed                                  // `get` found several threads
    | MessageList(thread: ThreadId, items: seq<Message>)

  /**
   * `MessageListAPIView.get`: the messages of the caller's thread `slug`,
   * oldest first; a thread of another user is as absent as a missing one.
   */
  function ListMessages(s: Store, user: UserId, slug: string): (r: MessagesReply)
    ensures r.ThreadMissing? <==> forall i :: 0 <= i < |s.threads| ==> !SluggedFor(s.threads[i], user, slug)
    ensures ThreadSlugsUnique(s.threads) ==> !r.ListingCrashed?
    ensures r.MessageList? ==>
      && r.thread < |s.threads| && SluggedFor(s.threads[r.thread], user, slug)
      && (forall m :: m in r.items <==> m in s.messages && m.thread == r.thread)
      && multiset(r.items) == multiset(InThread(s.messages, r.thread))
      && (forall i, j :: 0 <= i < j < |r.items| ==> r.items[i].timestamp <= r.items[j].timestamp)
  {
    match LookupBySlug(s.threads, user, slug)
    case Missing => ThreadMissing
    case Ambiguous => ListingCrashed
    case Found(id) => MessageList(id, OldestFirstOrder(InThread(s.messages, id)))
  }

  // ---------------------------------------------------------------------------
  // Chat turn

  /** What the completion client call produced: the reply content (possibly null) or an exception. */
  datatype Completion = Content(text: Option<string>) | Raised(detail: string)

  /** The completion service, asked with (question, model, system prompt, max_tokens). */
  type Oracle = (string, string, string, int) -> Completion

  /** `get_chat_response`: the reply content, or an exception turned into an "Error: ..." text. */
  function ChatResponse(c: Completion): (r: Option<string>)
    ensures c.Raised? ==> Present(r) && r.value == "Error: " + c.detail
    ensures c.Content? ==> r == c.text
  {
    match c
    case Content(text) => text
    case Raised(detail) => Some("Error: " + detail)
  }

  /** What `ChatAPIView.post` answers. */
  datatype ChatReply =
    | QuestionRequired     // 400 "Question is required."
    | ThreadNotFound       // 404 "ChatThread does not exist."
    | LookupCrashed        // `get` found several threads; the exception escapes the view
    | GenerationFailed     // 500 "Failed to generate a valid response."
    | Created(message: Message, newThreadCreated: bool, threadSlug: Option<string>)  // 201
  {
    /** The HTTP status of the reply; an escaping lookup exception is a server error. */
    function Status(): (code: int)
      ensures code == 400 <==> this.QuestionRequired?
      ensures code == 404 <==> this.ThreadNotFound?
      ensures code == 201 <==> this.Created?
      ensures code == 500 <==> this.LookupCrashed? || this.GenerationFailed?
    {
      match this
      case QuestionRequired => 400
      case ThreadNotFound => 404
      case LookupCrashed => 500
      case GenerationFailed => 500
      case Created(_, _, _) => 201
    }
  }

  /** The thread a chat turn settles on, and the store after settling. */
  datatype Resolution =
    | NoThread
    | SeveralThreads
    | Resolved(store: Store, id: ThreadId, created: bool, slug: Option<string>)

  /**
   * Step one of a chat turn: with a slug, the caller's thread holding it;
   * without one, the caller's newest thread titled `question[:30]`, or a
   * new thread with that title.
   */
  function ResolveThread(s: Store, user: UserId, q: string, slug: Option<string>, now: nat,
                         slugify: string -> string): (r: Resolution)
    requires q != ""
    ensures Present(slug) ==>
      (r.NoThread? <==> forall i :: 0 <= i < |s.threads| ==> !SluggedFor(s.threads[i], user, slug.value))
    ensures Present(slug) && r.Resolved? ==>
      r.store == s && !r.created && r.slug == slug && r.id < |s.threads| && SluggedFor(s.threads[r.id], user, slug.value)
    ensures !Present(slug) ==> r.Resolved?
    ensures r.Resolved? ==> r.store.users == s.users && r.store.messages == s.messages && r.store.settings == s.settings
    ensures !Present(slug) && (exists i :: 0 <= i < |s.threads| && TitledFor(s.threads[i], user, Title(q))) ==>
      && r.Resolved? && r.store == s && !r.created && r.id < |s.threads|
      && TitledFor(s.threads[r.id], user, Title(q)) && r.slug == s.threads[r.id].slug
      && (forall i :: 0 <= i < |s.threads| && TitledFor(s.threads[i], user, Title(q)) ==>
            s.threads[i].createdAt <= s.threads[r.id].createdAt)
    ensures !Present(slug) && (forall i :: 0 <= i < |s.threads| ==> !TitledFor(s.threads[i], user, Title(q))) ==>
      && r.Resolved? && r.created && r.id == |s.threads|
      && var t := SaveThreadSlug(Thread(Title(q), None, user, now), ThreadSlugs(s.threads), slugify);
         r.store.threads == s.threads + [t] && r.slug == t.slug
    ensures r.Resolved? ==> r.id < |r.store.threads| && r.store.threads[r.id].owner == user
                            && r.slug == r.store.threads[r.id].slug
    ensures ThreadSlugsUnique(s.threads) ==> !r.SeveralThreads?
    ensures r.Resolved? && Valid(s) ==> Valid(r.store)
  {
    if !Present(slug) then
      var title := Title(q);
      match NewestTitled(s.threads, user, title)
      case Some(id) => Resolved(s, id, false, s.threads[id].slug)
      case None =>
        var t := SaveThreadSlug(Thread(title, None, user, now), ThreadSlugs(s.threads), slugify);
        AppendFreshThread(s.threads, t);
        Resolved(s.(threads := s.threads + [t]), |s.threads|, true, t.slug)
    else
      match LookupBySlug(s.threads, user, slug.value)
      case Missing => NoThread
      case Ambiguous => SeveralThreads
      case Found(id) => Resolved(s, id, false, slug)
  }

  /** The completion's answer is usable: `if not gorq_response` does not fire. */
  predicate Usable(answer: Option<string>)
  {
    answer.Some? && answer.value != ""
  }

  /** The settings a user's chat turn runs with: the stored ones, else the chat defaults. */
  function EffectiveSettings(s: Store, user: UserId): Settings
  {
    if user in s.settings then s.settings[user] else ChatDefaults
  }

  /**
   * A slugless turn whose title matches: the threads stay as they were, and
   * a 201 lands in the caller's newest thread with that title, reports its
   * slug and says no thread was created.
   */
  predicate ReusesNewestTitled(s: Store, o: Outcome<ChatReply>, user: UserId, title: string)
  {
    && o.store.threads == s.threads
    && (o.reply.Created? ==>
          && !o.reply.newThreadCreated
          && o.reply.message.thread < |s.threads|
          && TitledFor(s.threads[o.reply.message.thread], user, title)
          && (forall i :: 0 <= i < |s.threads| && TitledFor(s.threads[i], user, title) ==>
                s.threads[i].createdAt <= s.threads[o.reply.message.thread].createdAt)
          && o.reply.threadSlug == s.threads[o.reply.message.thread].slug)
  }

  /**
   * A slugless turn whose title matches nothing: exactly one thread is
   * appended, the caller's, saved by the thread save rule; a 201 lands in
   * it, reports its slug and says a thread was created.
   */
  predicate CreatesTitled(s: Store, o: Outcome<ChatReply>, user: UserId, title: string, now: nat,
                          slugify: string -> string)
  {
    && |o.store.threads| == |s.threads| + 1 && o.store.threads[..|s.threads|] == s.threads
    && var t := o.store.threads[|s.threads|];
       && t.title == title && t.owner == user && t.createdAt == now
       && t.slug.Some? && t.slug.value !in ThreadSlugs(s.threads)
       && t == SaveThreadSlug(Thread(title, None, user, now), ThreadSlugs(s.threads), slugify)
       && (o.reply.Created? ==>
             o.reply.newThreadCreated && o.reply.threadSlug == t.slug && o.reply.message.thread == |s.threads|)
  }

  /**
   * A 201 appends exactly one message: in a thread of the caller, by the
   * caller, holding the question, the answer the completion gave with the
   * effective settings, and the slug the message save rule assigns.
   */
  predicate AppendsAnswer(s: Store, o: Outcome<ChatReply>, user: UserId, q: string, now: nat,
                          oracle: Oracle, slugify: string -> string)
    requires o.reply.Created?
  {
    var m := o.reply.message;
    var st := EffectiveSettings(s, user);
    && o.store.messages == s.messages + [m]
    && m.thread < |o.store.threads| && o.store.threads[m.thread].owner == user
    && m.author == user && m.message == q && m.timestamp == now
    && Some(m.response) == ChatResponse(oracle(q, st.model, st.customizeResponse, st.maxTokens))
    && m.slug.Some? && m.slug.value !in MessageSlugs(s.messages)
    && m == SaveMessageSlug(Message(m.thread, user, q, m.response, now, None), MessageSlugs(s.messages), slugify)
  }

  /**
   * `ChatAPIView.post`: validate the question, resolve or create the
   * thread, get or create the settings, ask the completion service with
   * those settings, and append exactly one message when the answer is
   * usable.  Writes made before a failure are kept.
   */
  function ChatTurn(s: Store, user: UserId, question: Option<string>, slug: Option<string>, now: nat,
                    oracle: Oracle, slugify: string -> string): (o: Outcome<ChatReply>)
    ensures !Present(question) ==> o == Outcome(QuestionRequired, s)
    ensures Present(question) ==> !o.reply.QuestionRequired?
    // once the thread is resolved: 201 for a usable answer, 500 otherwise
    ensures Present(question) && !o.reply.ThreadNotFound? && !o.reply.LookupCrashed? ==>
      var st := EffectiveSettings(s, user);
      o.reply.Status() ==
        if Usable(ChatResponse(oracle(question.value, st.model, st.customizeResponse, st.maxTokens))) then 201 else 500
    ensures o.reply.ThreadNotFound? || o.reply.LookupCrashed? ==> o.store == s
    ensures Present(question) && Present(slug) ==>
      (o.reply.ThreadNotFound? <==> forall i :: 0 <= i < |s.threads| ==> !SluggedFor(s.threads[i], user, slug.value))
    ensures ThreadSlugsUnique(s.threads) ==> !o.reply.LookupCrashed?
    ensures o.store.users == s.users
    ensures !o.reply.Created? ==> o.store.messages == s.messages
    // thread resolution without a slug
    ensures Present(question) && !Present(slug) ==> !o.reply.ThreadNotFound? && !o.reply.LookupCrashed?
    ensures Present(question) && !Present(slug) &&
            (exists i :: 0 <= i < |s.threads| && TitledFor(s.threads[i], user, Title(question.value))) ==>
      ReusesNewestTitled(s, o, user, Title(question.value))
    ensures Present(question) && !Present(slug) &&
            (forall i :: 0 <= i < |s.threads| ==> !TitledFor(s.threads[i], user, Title(question.value))) ==>
      CreatesTitled(s, o, user, Title(question.value), now, slugify)
    ensures Present(question) && Present(slug) ==> o.store.threads == s.threads
    ensures o.reply.Created? && Present(slug) ==> o.reply.threadSlug == slug && !o.reply.newThreadCreated
    // settings and the completion call
    ensures o.reply.Created? || o.reply.GenerationFailed? ==>
      o.store.settings == s.settings[user := EffectiveSettings(s, user)]
    ensures o.reply.Created? || o.reply.GenerationFailed? ==>
      var st := EffectiveSettings(s, user);
      (o.reply.GenerationFailed? <==>
         !Usable(ChatResponse(oracle(question.value, st.model, st.customizeResponse, st.maxTokens))))
    // the one message a successful turn appends
    ensures o.reply.Created? ==> AppendsAnswer(s, o, user, question.value, now, oracle, slugify)
  {
    if !Present(question) then Outcome(QuestionRequired, s)
    else
      var q := question.value;
      match ResolveThread(s, user, q, slug, now, slugify)
      case NoThread => Outcome(ThreadNotFound, s)
      case SeveralThreads => Outcome(LookupCrashed, s)
      case Resolved(s1, id, created, threadSlug) =>
        var settings := GetOrCreateSettings(s1, user, ChatDefaults);
        var s2 := settings.store;
        var st := settings.reply;
        assert st == EffectiveSettings(s, user) && s2.messages == s.messages;
        var answer := ChatResponse(oracle(q, st.model, st.customizeResponse, st.maxTokens));
        if !Usable(answer) then Outcome(GenerationFailed, s2)
        else
          var m := SaveMessageSlug(Message(id, user, q, answer.value, now, None), MessageSlugs(s2.messages), slugify);
          Outcome(Created(m, created, threadSlug), s2.(messages := s2.messages + [m]))
  }

  // ---------------------------------------------------------------------------
  // Properties across calls

  /**
   * A completion call that raises does not fail the turn: once the thread
   * is resolved, the turn answers 201 and stores "Error: " followed by the
   * exception text as the response.
   */
  lemma RaisedCompletionIsStored(s: Store, user: UserId, q: string, slug: Option<string>, now: nat,
                                 oracle: Oracle, slugify: string -> string)
    requires q != ""
    requires forall model, prompt, maxTokens :: oracle(q, model, prompt, maxTokens).Raised?
    ensures var o := ChatTurn(s, user, Some(q), slug, now, oracle, slugify);
            !o.reply.ThreadNotFound? && !o.reply.LookupCrashed? ==>
              && o.reply.Created?
              && o.reply.Status() == 201
              && var st := EffectiveSettings(s, user);
                 o.reply.message.response == "Error: " + oracle(q, st.model, st.customizeResponse, st.maxTokens).detail
  {
  }

  /** A chat turn's threads, new-thread flag, slug and message thread are those of its resolution step. */
  lemma ChatTurnFollowsResolution(s: Store, user: UserId, q: string, slug: Option<string>, now: nat,
                                  oracle: Oracle, slugify: string -> string)
    requires q != ""
    ensures var o := ChatTurn(s, user, Some(q), slug, now, oracle, slugify);
            var r := ResolveThread(s, user, q, slug, now, slugify);
            && (r.Resolved? ==> o.store.threads == r.store.threads)
            && (!r.Resolved? ==> o.store == s)
            && (r.Resolved? ==>
                  var s2 := GetOrCreateSettings(r.store, user, ChatDefaults).store;
                  if o.reply.Created? then o.store == s2.(messages := s2.messages + [o.reply.message])
                  else o.store == s2)
            && (o.reply.Created? ==>
                  r.Resolved? && o.reply.message.thread == r.id
                  && o.reply.newThreadCreated == r.created && o.reply.threadSlug == r.slug)
  {
  }

  /** A chat turn keeps the store invariant: unique slugs, titled threads slugged, messages in stored threads. */
  lemma ChatTurnPreservesValid(s: Store, user: UserId, question: Option<string>, slug: Option<string>,
                               now: nat, oracle: Oracle, slugify: string -> string)
    requires Valid(s)
    ensures Valid(ChatTurn(s, user, question, slug, now, oracle, slugify).store)
  {
    var o := ChatTurn(s, user, question, slug, now, oracle, slugify);
    if Present(question) {
      var q := question.value;
      ChatTurnFollowsResolution(s, user, q, slug, now, oracle, slugify);
      var r := ResolveThread(s, user, q, slug, now, slugify);
      if r.Resolved? {
        var s2 := GetOrCreateSettings(r.store, user, ChatDefaults).store;
        assert Valid(s2);
        if o.reply.Created? {
          AppendMessageKeepsValid(s2, o.reply.message);
        }
      }
    }
  }

  /** In a valid store every successful chat turn tells the client a thread slug. */
  lemma CreatedReplyHasSlug(s: Store, user: UserId, question: Option<string>, slug: Option<string>,
                            now: nat, oracle: Oracle, slugify: string -> string)
    requires Valid(s)
    ensures var o := ChatTurn(s, user, question, slug, now, oracle, slugify);
            o.reply.Created? ==> o.reply.threadSlug.Some?
  {
    var o := ChatTurn(s, user, question, slug, now, oracle, slugify);
    if o.reply.Created? && !Present(slug) && !o.reply.newThreadCreated {
      assert Title(question.value) != "";
    }
  }

  /**
   * Asking the same question twice without a slug lands both turns in the
   * same thread: the second turn finds the thread the first one used or
   * created (even when the first turn's completion failed) and creates none.
   */
  lemma RepeatedQuestionSameThread(s: Store, user: UserId, q: string, now1: nat, now2: nat,
                                   oracle1: Oracle, oracle2: Oracle, slugify: string -> string)
    requires q != ""
    ensures var o1 := ChatTurn(s, user, Some(q), None, now1, oracle1, slugify);
            var o2 := ChatTurn(o1.store, user, Some(q), None, now2, oracle2, slugify);
            && o2.store.threads == o1.store.threads
            && (o2.reply.Created? ==> !o2.reply.newThreadCreated)
            && (o1.reply.Created? && o2.reply.Created? ==>
                  && o2.reply.message.thread == o1.reply.message.thread
                  && o2.reply.threadSlug == o1.reply.threadSlug)
  {
    var o1 := ChatTurn(s, user, Some(q), None, now1, oracle1, slugify);
    var r1 := ResolveThread(s, user, q, None, now1, slugify);
    ChatTurnFollowsResolution(s, user, q, None, now1, oracle1, slugify);
    ChatTurnFollowsResolution(o1.store, user, q, None, now2, oracle2, slugify);
    if r1.created {
      ResolveAgainFindsCreated(s, o1.store, user, q, now1, now2, slugify);
    } else {
      ResolveAgainFindsSame(s, o1.store, user, q, now1, now2, slugify);
    }
  }

  /** A slugless resolution that created a thread finds that thread on the next slugless resolution. */
  lemma ResolveAgainFindsCreated(s: Store, s2: Store, user: UserId, q: string, now1: nat, now2: nat,
                                 slugify: string -> string)
    requires q != ""
    ensures var r1 := ResolveThread(s, user, q, None, now1, slugify);
            r1.Resolved? && r1.created && s2.threads == r1.store.threads ==>
              ResolveThread(s2, user, q, None, now2, slugify) == Resolved(s2, r1.id, false, r1.slug)
  {
    var r1 := ResolveThread(s, user, q, None, now1, slugify);
    if r1.Resolved? && r1.created && s2.threads == r1.store.threads {
      var ts := s2.threads;
      assert ts == s.threads + [ts[|s.threads|]];
      assert forall i :: 0 <= i < |ts| && TitledFor(ts[i], user, Title(q)) ==> i == r1.id;
    }
  }

  /** A slugless resolution that reused a thread finds it again while the threads stay the same. */
  lemma ResolveAgainFindsSame(s: Store, s2: Store, user: UserId, q: string, now1: nat, now2: nat,
                              slugify: string -> string)
    requires q != ""
    ensures var r1 := ResolveThread(s, user, q, None, now1, slugify);
            r1.Resolved? && !r1.created && s2.threads == s.threads ==>
              ResolveThread(s2, user, q, None, now2, slugify) == Resolved(s2, r1.id, false, r1.slug)
  {
  }

  /**
   * In a valid store, the message a successful chat turn appends is listed
   * under the thread slug the turn reports, for the same user.
   */
  lemma ChatThenList(s: Store, user: UserId, question: Option<string>, slug: Option<string>,
                     now: nat, oracle: Oracle, slugify: string -> string)
    requires Valid(s)
    ensures var o := ChatTurn(s, user, question, slug, now, oracle, slugify);
            o.reply.Created? ==>
              && o.reply.threadSlug.Some?
              && var listing := ListMessages(o.store, user, o.reply.threadSlug.value);
              && listing.MessageList?
              && listing.thread == o.reply.message.thread
              && o.reply.message in listing.items
  {
    var o := ChatTurn(s, user, question, slug, now, oracle, slugify);
    if o.reply.Created? {
      CreatedReplyHasSlug(s, user, question, slug, now, oracle, slugify);
      ChatTurnPreservesValid(s, user, question, slug, now, oracle, slugify);
      ChatTurnFollowsResolution(s, user, question.value, slug, now, oracle, slugify);
      ListedUnderItsThread(o.store, user, o.reply.message.thread, o.reply.threadSlug.value, o.reply.message);
    }
  }

  /** In a store with unique thread slugs, a message of the caller's thread is listed under that thread's slug. */
  lemma ListedUnderItsThread(s: Store, user: UserId, id: ThreadId, slug: string, m: Message)
    requires ThreadSlugsUnique(s.threads)
    ensures id < |s.threads| && SluggedFor(s.threads[id], user, slug) && m in s.messages && m.thread == id ==>
              var listing := ListMessages(s, user, slug);
              listing.MessageList? && listing.thread == id && m in listing.items
  {
  }
}

=== FILE: wrappers.dfy ===
/** Failure-carrying return types shared by the whole model. */
module Wrappers {

  /** A value that may be absent: a missing request field, an unset slug, a lookup miss. */
  datatype Option<+T> = None | Some(value: T)

  /** The outcome of a validator: the validated value, or the reason it was refused. */
  datatype Result<+R, +E> = Success(value: R) | Failure(error: E)
}
